=== FILE: README.md ===
# Signing transport, modelled in Dafny

A model of the signing transport of `aws-signing` (`signing/transport.go`): an
HTTP round-tripper that sits in front of an inner transport and attaches an
AWS Signature Version 4 authorization to every outbound request that does not
already carry one.

One call of `RoundTrip`:

1. checks the configuration in the order signer, service, region and fails
   with `MissingSigner`, `MissingService` or `MissingRegion`;
2. passes a request whose first `Authorization` value starts with `AWS4`
   straight to the inner transport;
3. otherwise changes the request in place: scheme `https`, raw path
   re-escaped when it contains `%2C`, the four `X-Forwarded-*` headers
   removed, `Date` set;
4. reads the body into memory, hashes it with SHA-256 and puts a fresh reader
   over the same bytes back;
5. calls the signer and, when it succeeds, hands the request to the inner
   transport and returns its result.

Files:

- `wrappers.dfy` — `Option` and `Result`.
- `strings.dfy` — module `Strings`: `strings.HasPrefix`, `strings.Index`,
  `strings.Contains` and Go's `string([]byte)` conversion.
- `http.dfy` — module `Http`: the request as a mutable class `Request`
  (scheme, raw path, header map keyed by canonical name, body stream), the
  body stream as a mutable class `Stream` that reading drains, their value
  `Message`, `Header.Del`/`Header.Set`, `ioutil.ReadAll` and the in-memory
  reader.
- `transport.dfy` — module `Signing`: the error values, the class
  `Transport` with `RoundTrip`, `Sign` and `RebuildBody`, and the functions
  `Normalized`, `Rebuilt`, `SignSpec` and `RoundTripSpec` that describe one
  call as a value (its result, the signer calls and inner-transport calls it
  made, and the request it leaves). Each method is proved to agree with its
  function.
- `properties.dfy` — module `SigningProperties`: what `RoundTripSpec`
  guarantees.

SHA-256, `escapePath` and RFC 3339 formatting are fields of a `Primitives`
record passed in; the signer and the inner transport are function values; the
clock reading is the parameter `now`; `http.DefaultTransport` is the
parameter `defaultTransport`. `RoundTrip` returns, as ghost outputs, the
arguments of every call it made to the signer and to the inner transport.

The payload hash handed to the signer is `string(hash)`, the raw 32 digest
bytes (signing/transport.go:94, 102-103, 111-112), although the comment at
signing/transport.go:93 calls it hex-encoded. The model follows the code: `payloadHash` is `FromBytes` of the
digest and has 32 characters, not 64.

Only the first value of the `Authorization` header is tested for the `AWS4`
prefix (signing/transport.go:64). A body that cannot be read stops the
request only after the scheme, path, forwarding headers and `Date` have been
changed (signing/transport.go:75-91), so those changes stay on the request.
The comment at signing/transport.go:30 says an unspecified region falls back
to `AWS_REGION`; `NewTransport` does no such thing, and an empty region fails
with `MissingRegion` (signing/transport.go:56-58), as in the model.

Reading the body drains it: `Stream.ReadToEnd` leaves the stream object, and
so every reference to it, with nothing left to read. The body the inner
transport receives carries the original bytes only because `RebuildBody`
puts a freshly allocated reader over them back (signing/transport.go:106-110).

## Model

| member | source | states |
|---|---|---|
| `Strings.HasPrefix` | signing/transport.go:64 | true exactly when the string is the prefix followed by some rest |
| `Strings.Index` | signing/transport.go:76 | -1 or an index where the substring occurs, and no occurrence before it (none at all when -1) |
| `Strings.Contains` | signing/transport.go:76 | true exactly when the substring occurs at some index |
| `Strings.FromBytes` | signing/transport.go:94 | `string(hash)` keeps one character per byte, same length, same values |
| `Strings.FromBytesInjective` | signing/transport.go:94 | distinct digests give distinct payload-hash strings |
| `Http.ReadAll` | signing/transport.go:106 | what `ioutil.ReadAll` returns for a stream: its unread bytes, or its error |
| `Http.Drained` | signing/transport.go:106 | a stream once read to the end yields no more bytes; a failing one still fails |
| `Http.Stream.ReadToEnd` | signing/transport.go:106 | returns what the stream yields and leaves the stream object drained |
| `Http.MemoryBody` | signing/transport.go:110 | the fresh reader over `d` reads back exactly `d` |
| `Http.Request.DelHeader` | signing/transport.go:81-84 | the key is gone, every other header and the other fields unchanged |
| `Http.Request.SetHeader` | signing/transport.go:87 | the key has exactly the one given value, everything else unchanged |
| `Signing.AlreadySigned` | signing/transport.go:64 | bypass exactly when `Authorization` is present, non-empty, and its first value is `AWS4` followed by something |
| `Signing.Normalized` | signing/transport.go:75-87 | the request after the in-place edits: https; raw path re-escaped exactly when `%2C` occurs; no `X-Forwarded-*`; `Date` is the one formatted instant; other headers and the body as they were |
| `Signing.Rebuilt` | signing/transport.go:100-113 | nil body: stays nil, digest of no bytes; readable body: digest of its bytes and a body that reads back exactly those bytes; read error: that error, body left drained |
| `Signing.Transport.Base` | signing/transport.go:60-63 | the configured `BaseTransport`, or the default transport when it is nil |
| `Signing.Transport.constructor` | signing/transport.go:31-38 | signer, credentials, service and region as given, no base transport |
| `Signing.Transport.RoundTrip` | signing/transport.go:49-72 | result, signer calls, inner-transport calls and the request as handed to the inner transport (as left behind when nothing is delegated) are those of `RoundTripSpec` on the request as it came in; when the request is signed, its original body stream is left drained |
| `Signing.Transport.Sign` | signing/transport.go:74-98 | error, signer calls and the request left behind are those of `SignSpec`: normalise, rebuild body, sign; the original body stream is left drained |
| `Signing.Transport.RebuildBody` | signing/transport.go:100-113 | digest or error and the body left behind are those of `Rebuilt`: the original stream object is left drained, and on success the body is a newly allocated reader over the bytes read; nothing else changes |
| `SigningProperties.GuardOrder` | signing/transport.go:50-58 | the first missing of signer, service, region decides the error, even for an already-signed request; nothing changed, nothing called |
| `SigningProperties.Bypass` | signing/transport.go:64-66 | a configured transport passes an already-signed request through unchanged, never calls the signer, returns the inner transport's result |
| `SigningProperties.SchemeAndRawPath` | signing/transport.go:75-78 | a request being signed ends up on https; its raw path is re-escaped with `escapePath(path, false)` exactly when `%2C` occurs in it, else unchanged |
| `SigningProperties.SignerSeesNormalizedRequest` | signing/transport.go:81-89 | the signer is called once, on a request with https, no `X-Forwarded-*` header, one `Date` value, every other header as it came in |
| `SigningProperties.BodyRoundTrip` | signing/transport.go:100-113 | nil stays nil; a body yielding B is replaced by one yielding exactly B; the signer and the inner transport see that body |
| `SigningProperties.SignerInputs` | signing/transport.go:86-94 | the signer gets the configured credentials, service and region, the instant written into `Date`, and the raw 32-byte SHA-256 of the bytes the inner transport receives (of no bytes for a nil body) |
| `SigningProperties.SignerOutcome` | signing/transport.go:68-71 | the headers the signer leaves stay on the request, on failure too; signer failure: a signing error, inner transport not called; success: request sent once, inner result returned |
| `SigningProperties.BodyReadFailureStops` | signing/transport.go:89-91 | a body read failure is returned as a signing error; neither the signer nor the inner transport is called; the body is left drained |
| `SigningProperties.DelegationOnly` | signing/transport.go:49-72 | signer and inner transport each called at most once; the inner result is returned unchanged; without delegation the result is the transport's own error; no signer call with delegation means bypass |

## Left out

- aws-reverse-proxy/main.go: flag parsing, configuration loading and merging, the HTTP server and logging are I/O and orchestration; `NewReverseProxy` is not part of this model.
- The SigV4 algorithm inside `SignHTTP`: the signer is a function value that returns the header map it leaves on the request and its error, if any; the model assumes it changes nothing but headers.
- SHA-256, `escapePath` and `time.Format(time.RFC3339)` are parameters (`Primitives`); their bodies are not modelled.
- `time.Now` is the parameter `now`; `http.DefaultTransport` is the parameter `defaultTransport`; the network round trip is a function value.
- Request context and cancellation, and concurrent use of one `Transport`.
- Header-name canonicalisation (`CanonicalMIMEHeaderKey`): header maps are keyed by canonical names already.
- Error message texts: errors are kinds (`BodyReadFailed`, `SignerFailed`, wrapped in `SigningFailed`); the source wraps a signer failure twice in "error signing request".
- Request fields other than scheme, raw path, headers and body: the transport does not touch them.
- Signing.Transport.RebuildBody: after a failed read the model takes the whole stream as consumed; in the source it stops at whatever point the error struck.
- Signing.Transport.RoundTrip: the inner transport is a function of the request's value and is modelled as not touching the request; in Go it may read and close the body (http.DefaultTransport does), so after delegation the request holds a drained body, not the one stated.
- A nil header map or a nil URL cannot be represented: headers are a possibly empty map and the URL's fields are fields of the request. In Go a configured transport panics on such a request that is not already signed (signing/transport.go:75, 87).

=== FILE: http.dfy ===
/**
  The part of Go's `net/http` request model that the signing transport reads
  and writes: the URL's scheme and raw path, the header map, and the body
  stream. Header maps are keyed by canonical header name, the form in which
  net/http stores them.
 */
module Http {
  import opened Wrappers
  import opened Strings

  type Headers = map<string, seq<string>>

  /**
    The state of a body stream. Reading it to the end yields the `bytes`
    still unread, unless `failure` holds the error with which the read breaks
    off.
   */
  datatype Body = Body(bytes: seq<byte>, failure: Option<string>)

  /** What ioutil.ReadAll returns for a body stream in state `b`. */
  function ReadAll(b: Body): (r: Result<seq<byte>, string>)
    ensures r.Ok? <==> b.failure.None?
    ensures r.Ok? ==> r.value == b.bytes
    ensures r.Err? ==> r.error == b.failure.value
  {
    match b.failure
    case None => Ok(b.bytes)
    case Some(e) => Err(e)
  }

  /**
    The stream after ioutil.ReadAll: nothing is left to read, so a stream
    that yielded its bytes now yields none, and a failing one still fails.
   */
  function Drained(b: Body): (r: Body)
    ensures ReadAll(b).Ok? ==> ReadAll(r) == Ok([])
    ensures ReadAll(b).Err? ==> ReadAll(r) == ReadAll(b)
  {
    Body([], b.failure)
  }

  /** The state of ioutil.NopCloser(bytes.NewReader(d)): an in-memory body over `d`. */
  function MemoryBody(d: seq<byte>): (b: Body)
    ensures ReadAll(b) == Ok(d)
  {
    Body(d, None)
  }

  /** The bytes a body still yields, an absent body counting as empty. */
  function Payload(body: Option<Body>): seq<byte>
  {
    match body
    case None => []
    case Some(b) => b.bytes
  }

  /** A request as a value: what the signer and the inner transport are handed. */
  datatype Message = Message(scheme: string, rawPath: string, header: Headers, body: Option<Body>)

  datatype Response = Response(statusCode: int, header: Headers, body: seq<byte>)

  /**
    A body stream object (`io.ReadCloser`). Reading it consumes it, for every
    holder of a reference to it.
   */
  class Stream {
    var unread: seq<byte>
    var failure: Option<string>

    constructor (b: Body)
      ensures State() == b
    {
      unread, failure := b.bytes, b.failure;
    }

    function State(): Body
      reads this
    {
      Body(unread, failure)
    }

    /** ioutil.ReadAll on this stream: what it yields; it is drained afterwards. */
    method ReadToEnd() returns (r: Result<seq<byte>, string>)
      modifies this
      ensures r == ReadAll(old(State()))
      ensures State() == Drained(old(State()))
    {
      r := ReadAll(State());
      unread := [];
    }
  }

  /** An outbound request, changed in place by the transport (`*http.Request`). */
  class Request {
    var scheme: string   // req.URL.Scheme
    var rawPath: string  // req.URL.RawPath
    var header: Headers  // req.Header
    var body: Option<Stream>  // req.Body; None is a nil body

    /**
      A request with the given value and a new body stream. A convenience for
      callers building requests; the transport itself never creates one.
     */
    constructor (m: Message)
      ensures Value() == m && fresh(Streams())
    {
      scheme, rawPath, header := m.scheme, m.rawPath, m.header;
      if m.body.Some? {
        var b := new Stream(m.body.value);
        body := Some(b);
      } else {
        body := None;
      }
    }

    /** The body stream object, if any. */
    function Streams(): set<object>
      reads this
    {
      if body.Some? then {body.value} else {}
    }

    function Value(): Message
      reads this, Streams()
    {
      Message(scheme, rawPath, header, if body.Some? then Some(body.value.State()) else None)
    }

    /** Header.Del: remove every value of `key`. */
    method DelHeader(key: string)
      modifies this
      ensures header == old(header) - {key}
      ensures scheme == old(scheme) && rawPath == old(rawPath) && body == old(body)
    {
      header := header - {key};
    }

    /** Header.Set: make `value` the one and only value of `key`. */
    method SetHeader(key: string, value: string)
      modifies this
      ensures header == old(header)[key := [value]]
      ensures scheme == old(scheme) && rawPath == old(rawPath) && body == old(body)
    {
      header := header[key := [value]];
    }
  }
}

=== FILE: properties.dfy ===
/**
  What one RoundTrip call does, stated over RoundTripSpec, which
  Signing.Transport.RoundTrip is proved to follow.
 */
module SigningProperties {
  import opened Wrappers
  import opened Strings
  import opened Http
  import opened Signing

  /** Signer, service and region are all configured. */
  predicate Configured(signer: Option<Signer>, service: string, region: string)
  {
    signer.Some? && service != "" && region != ""
  }

  /** The body is absent, or reading it succeeds. */
  predicate Readable(body: Option<Body>)
  {
    body.None? || body.value.failure.None?
  }

  /**
    The guards run in the order signer, service, region, and before the
    bypass test: the first one missing decides the error, whatever the
    Authorization header says, and the request is left as it was, with no
    call to the signer or the inner transport.
   */
  lemma GuardOrder(signer: Option<Signer>, credentials: Credentials, service: string, region: string,
                   base: RoundTripper, m: Message, p: Primitives, now: Time)
    ensures var t := RoundTripSpec(signer, credentials, service, region, base, m, p, now);
      && (signer.None? ==> t == Trace(Err(MissingSigner), [], [], m))
      && (signer.Some? && service == "" ==> t == Trace(Err(MissingService), [], [], m))
      && (signer.Some? && service != "" && region == "" ==> t == Trace(Err(MissingRegion), [], [], m))
  {
  }

  /**
    A configured transport hands an already-signed request to the inner
    transport exactly as given, never calls the signer, and returns the inner
    transport's result.
   */
  lemma Bypass(signer: Option<Signer>, credentials: Credentials, service: string, region: string,
               base: RoundTripper, m: Message, p: Primitives, now: Time)
    requires Configured(signer, service, region) && AlreadySigned(m.header)
    ensures RoundTripSpec(signer, credentials, service, region, base, m, p, now) == Trace(base(m), [], [m], m)
  {
  }

  /**
    Whatever happens after the guards, a request that is not already signed
    is switched to https, and its raw path is re-escaped exactly when it
    contains an encoded comma.
   */
  lemma SchemeAndRawPath(signer: Option<Signer>, credentials: Credentials, service: string, region: string,
                         base: RoundTripper, m: Message, p: Primitives, now: Time)
    requires Configured(signer, service, region) && !AlreadySigned(m.header)
    ensures var t := RoundTripSpec(signer, credentials, service, region, base, m, p, now);
      && t.request.scheme == "https"
      && ((exists i :: OccursAt(m.rawPath, EncodedComma, i)) ==> t.request.rawPath == p.escapePath(m.rawPath, false))
      && (!(exists i :: OccursAt(m.rawPath, EncodedComma, i)) ==> t.request.rawPath == m.rawPath)
  {
  }

  /**
    When the body can be read, the signer is called exactly once, on a
    request that uses https, carries none of the forwarding headers, has a
    single Date value, and keeps every other header as it was.
   */
  lemma SignerSeesNormalizedRequest(signer: Option<Signer>, credentials: Credentials, service: string, region: string,
                                    base: RoundTripper, m: Message, p: Primitives, now: Time)
    requires Configured(signer, service, region) && !AlreadySigned(m.header) && Readable(m.body)
    ensures var t := RoundTripSpec(signer, credentials, service, region, base, m, p, now);
      && |t.signerCalls| == 1
      && t.signerCalls[0].request.scheme == "https"
      && (forall k :: k in ForwardedHeaders ==> k !in t.signerCalls[0].request.header)
      && DateHeader in t.signerCalls[0].request.header
      && t.signerCalls[0].request.header[DateHeader] == [p.formatRFC3339(now)]
      && (forall k :: k !in ForwardedHeaders && k != DateHeader ==>
            (k in t.signerCalls[0].request.header <==> k in m.header))
      && (forall k :: k !in ForwardedHeaders && k != DateHeader && k in m.header ==>
            t.signerCalls[0].request.header[k] == m.header[k])
  {
  }

  /**
    The body survives hashing: an absent body stays absent, and a body that
    yields B is replaced by a fresh reader that yields exactly B. The signer
    and the inner transport see that same body.
   */
  lemma BodyRoundTrip(signer: Option<Signer>, credentials: Credentials, service: string, region: string,
                      base: RoundTripper, m: Message, p: Primitives, now: Time)
    requires Configured(signer, service, region) && !AlreadySigned(m.header) && Readable(m.body)
    ensures var t := RoundTripSpec(signer, credentials, service, region, base, m, p, now);
      && (m.body.None? ==> t.request.body.None?)
      && (m.body.Some? ==> t.request.body.Some? && ReadAll(t.request.body.value) == Ok(m.body.value.bytes))
      && Payload(t.request.body) == Payload(m.body)
      && |t.signerCalls| == 1 && t.signerCalls[0].request.body == t.request.body
      && (forall d :: d in t.delegated ==> d.body == t.request.body)
  {
  }

  /**
    The signer gets the configured credentials, service and region, the
    instant written into Date, and as payload hash the raw 32-byte SHA-256
    digest of the bytes the inner transport will receive (of zero bytes when
    there is no body).
   */
  lemma SignerInputs(signer: Option<Signer>, credentials: Credentials, service: string, region: string,
                     base: RoundTripper, m: Message, p: Primitives, now: Time)
    requires Configured(signer, service, region) && !AlreadySigned(m.header) && Readable(m.body)
    ensures var t := RoundTripSpec(signer, credentials, service, region, base, m, p, now);
      && |t.signerCalls| == 1
      && t.signerCalls[0].credentials == credentials
      && t.signerCalls[0].service == service && t.signerCalls[0].region == region
      && t.signerCalls[0].signingTime == now
      && t.signerCalls[0].request.header[DateHeader] == [p.formatRFC3339(t.signerCalls[0].signingTime)]
      && t.signerCalls[0].payloadHash == FromBytes(p.sha256(Payload(m.body)))
      && |t.signerCalls[0].payloadHash| == 32
      && (m.body.None? ==> t.signerCalls[0].payloadHash == FromBytes(p.sha256([])))
      && (forall d :: d in t.delegated ==> t.signerCalls[0].payloadHash == FromBytes(p.sha256(Payload(d.body))))
  {
  }

  /**
    Whatever the signer does to the headers stays on the request. A signer
    failure is returned as a signing error and nothing is sent; on success
    the request goes to the inner transport once and its result is returned.
   */
  lemma SignerOutcome(signer: Option<Signer>, credentials: Credentials, service: string, region: string,
                      base: RoundTripper, m: Message, p: Primitives, now: Time)
    requires Configured(signer, service, region) && !AlreadySigned(m.header) && Readable(m.body)
    ensures var t := RoundTripSpec(signer, credentials, service, region, base, m, p, now);
      && |t.signerCalls| == 1
      && t.request == t.signerCalls[0].request.(header := signer.value(t.signerCalls[0]).header)
      && match signer.value(t.signerCalls[0]).failure
         case Some(e) =>
           t.result == Err(SigningFailed(SignerFailed(e))) && t.delegated == []
         case None =>
           t.delegated == [t.request] && t.result == base(t.request)
  {
  }

  /**
    A body that cannot be read fails the call before the signer or the inner
    transport is called, and is left drained.
   */
  lemma BodyReadFailureStops(signer: Option<Signer>, credentials: Credentials, service: string, region: string,
                             base: RoundTripper, m: Message, p: Primitives, now: Time)
    requires Configured(signer, service, region) && !AlreadySigned(m.header) && !Readable(m.body)
    ensures var t := RoundTripSpec(signer, credentials, service, region, base, m, p, now);
      && t.result == Err(SigningFailed(BodyReadFailed(m.body.value.failure.value)))
      && t.signerCalls == [] && t.delegated == []
      && t.request.body == Some(Drained(m.body.value))
  {
  }

  /**
    Each party is called at most once. When the inner transport is called it
    gets the request as finally left and its result is returned unchanged;
    when it is not, the result is one of the transport's own errors.
   */
  lemma DelegationOnly(signer: Option<Signer>, credentials: Credentials, service: string, region: string,
                       base: RoundTripper, m: Message, p: Primitives, now: Time)
    ensures var t := RoundTripSpec(signer, credentials, service, region, base, m, p, now);
      && |t.signerCalls| <= 1 && |t.delegated| <= 1
      && (t.delegated != [] ==> t.delegated[0] == t.request && t.result == base(t.request))
      && (t.delegated == [] ==> t.result.Err? && !t.result.error.Upstream?)
      && (t.signerCalls == [] && t.delegated != [] ==> Configured(signer, service, region) && AlreadySigned(m.header) && t.request == m)
  {
  }
}

=== FILE: strings.dfy ===
/**
  The part of Go's `strings` package that the signing transport calls
  (`strings.HasPrefix`, `strings.Contains` through `strings.Index`), and Go's
  `string([]byte)` conversion. A Go string is a sequence of bytes; here it is
  a `string`, and a string made from bytes has all its characters below 256.
 */
module Strings {

  newtype byte = b: int | 0 <= b < 0x100

  /** `sub` occurs in `s` starting at index `i`. */
  predicate OccursAt(s: string, sub: string, i: int)
  {
    0 <= i && i + |sub| <= |s| && s[i..i + |sub|] == sub
  }

  /** strings.HasPrefix: `s` is `prefix` followed by something. */
  function HasPrefix(s: string, prefix: string): (b: bool)
    ensures b <==> exists rest :: s == prefix + rest
  {
    var b := |prefix| <= |s| && s[..|prefix|] == prefix;
    assert b ==> s == prefix + s[|prefix|..];
    b
  }

  /**
    strings.Index: the first index at which `sub` occurs in `s`, or -1 when it
    occurs nowhere (an empty `sub` occurs at 0).
   */
  function Index(s: string, sub: string): (r: int)
    ensures r == -1 || OccursAt(s, sub, r)
    ensures forall i :: 0 <= i && (r == -1 || i < r) ==> !OccursAt(s, sub, i)
    decreases |s|
  {
    if |s| < |sub| then
      -1
    else if s[..|sub|] == sub then
      0
    else
      var k := Index(s[1..], sub);
      assert forall j :: 1 <= j ==> (OccursAt(s, sub, j) <==> OccursAt(s[1..], sub, j - 1));
      assert !OccursAt(s, sub, 0);
      if k == -1 then -1 else k + 1
  }

  /** strings.Contains: `sub` occurs somewhere in `s`. */
  function Contains(s: string, sub: string): (b: bool)
    ensures b <==> exists i :: OccursAt(s, sub, i)
  {
    Index(s, sub) >= 0
  }

  /** Go's `string(b)`: one character per byte, no decoding and no hex encoding. */
  function FromBytes(b: seq<byte>): (s: string)
    ensures |s| == |b|
    ensures forall i :: 0 <= i < |b| ==> s[i] as int == b[i] as int
  {
    seq(|b|, i requires 0 <= i < |b| => b[i] as int as char)
  }

  /** The conversion loses nothing: distinct byte sequences give distinct strings. */
  lemma FromBytesInjective(a: seq<byte>, b: seq<byte>)
    requires FromBytes(a) == FromBytes(b)
    ensures a == b
  {
  }
}

=== FILE: transport.dfy ===
/**
  The signing transport (signing/transport.go): an HTTP round-tripper that
  checks its configuration, passes already-signed requests straight through,
  and otherwise normalises the request, hashes its body, has it signed with
  AWS Signature Version 4 and hands it to the inner transport.

  The spec functions (Normalized, Rebuilt, SignSpec, RoundTripSpec) describe
  one call as a value; the methods of Transport change a Request in place and
  are proved to agree with them.
 */
module Signing {
  import opened Wrappers
  import opened Strings
  import opened Http

  /** Why `sign` failed: reading the body, or the signer itself. */
  datatype SignError =
    | BodyReadFailed(cause: string)  // "error reading http body to sign: …"
    | SignerFailed(cause: string)    // "error signing request: …"

  datatype Error =
    | MissingSigner
    | MissingService
    | MissingRegion
    | SigningFailed(cause: SignError)  // RoundTrip's "error signing request: …"
    | Upstream(reason: string)         // reported by the inner transport

  datatype Credentials = Credentials(accessKeyId: string, secretAccessKey: string, sessionToken: string)

  /** An instant, as read from the clock by the caller. */
  datatype Time = Time(unixNano: int)

  /** A SHA-256 digest: 32 raw bytes. */
  type Digest = d: seq<byte> | |d| == 32 witness seq(32, i => 0)

  /** The arguments of one call to the signer (SignHTTP). */
  datatype SignInput = SignInput(
    credentials: Credentials,
    request: Message,
    payloadHash: string,
    service: string,
    region: string,
    signingTime: Time)

  /**
    What the SigV4 signer does to a request: the headers it leaves on it, and
    the error it returns (None for nil). It may change headers even when it fails.
   */
  datatype SignOutcome = SignOutcome(header: Headers, failure: Option<string>)

  type Signer = SignInput -> SignOutcome

  /** The inner transport: a response, or an error it reports. */
  type RoundTripper = Message -> Result<Response, Error>

  /** Library routines whose bodies are not part of this model. */
  datatype Primitives = Primitives(
    sha256: seq<byte> -> Digest,
    escapePath: (string, bool) -> string,
    formatRFC3339: Time -> string)

  const Authorization := "Authorization"
  const DateHeader := "Date"
  const SignedPrefix := "AWS4"
  const EncodedComma := "%2C"
  const ForwardedHeaders: set<string> :=
    {"X-Forwarded-For", "X-Forwarded-Host", "X-Forwarded-Port", "X-Forwarded-Proto"}

  /** The request already carries a SigV4 authorization: its first Authorization value starts with AWS4. */
  predicate AlreadySigned(h: Headers)
    ensures AlreadySigned(h) <==>
      Authorization in h && |h[Authorization]| > 0 && exists rest :: h[Authorization][0] == "AWS4" + rest
  {
    Authorization in h && |h[Authorization]| > 0 && HasPrefix(h[Authorization][0], SignedPrefix)
  }

  /** The request after the in-place edits `sign` makes before reading the body. */
  function Normalized(m: Message, p: Primitives, now: Time): (n: Message)
    ensures n.scheme == "https"
    ensures (exists i :: OccursAt(m.rawPath, EncodedComma, i)) ==> n.rawPath == p.escapePath(m.rawPath, false)
    ensures !(exists i :: OccursAt(m.rawPath, EncodedComma, i)) ==> n.rawPath == m.rawPath
    ensures forall k :: k in ForwardedHeaders ==> k !in n.header
    ensures DateHeader in n.header && n.header[DateHeader] == [p.formatRFC3339(now)]
    ensures forall k :: k !in ForwardedHeaders && k != DateHeader ==> (k in n.header <==> k in m.header)
    ensures forall k :: k !in ForwardedHeaders && k != DateHeader && k in m.header ==> n.header[k] == m.header[k]
    ensures n.body == m.body
  {
    Message(
      "https",
      if Contains(m.rawPath, EncodedComma) then p.escapePath(m.rawPath, false) else m.rawPath,
      (m.header - ForwardedHeaders)[DateHeader := [p.formatRFC3339(now)]],
      m.body)
  }

  /** What `rebuildBody` leaves as the body, and the digest or error it returns. */
  datatype Rebuild = Rebuild(body: Option<Body>, digest: Result<Digest, SignError>)

  /**
    rebuildBody on a body in state `body`. The read drains the stream, so on
    success the body left behind is a fresh reader over the bytes read.
   */
  function Rebuilt(body: Option<Body>, sha256: seq<byte> -> Digest): (r: Rebuild)
    ensures body.None? ==> r == Rebuild(None, Ok(sha256([])))
    ensures body.Some? && ReadAll(body.value).Ok? ==>
      && r.digest == Ok(sha256(body.value.bytes))
      && r.body.Some? && ReadAll(r.body.value) == Ok(body.value.bytes)
    ensures body.Some? && ReadAll(body.value).Err? ==>
      r.digest == Err(BodyReadFailed(ReadAll(body.value).error)) && r.body == Some(Drained(body.value))
  {
    match body
    case None => Rebuild(None, Ok(sha256([])))
    case Some(b) =>
      match ReadAll(b)
      case Err(e) => Rebuild(Some(Drained(b)), Err(BodyReadFailed(e)))
      case Ok(d) => Rebuild(Some(MemoryBody(d)), Ok(sha256(d)))
  }

  /** One call of `sign`: its error, the signer calls it made, and the request it leaves. */
  datatype SignTrace = SignTrace(error: Option<SignError>, signerCalls: seq<SignInput>, request: Message)

  function SignSpec(signer: Signer, credentials: Credentials, service: string, region: string,
                    m: Message, p: Primitives, now: Time): SignTrace
  {
    var n := Normalized(m, p, now);
    var rb := Rebuilt(n.body, p.sha256);
    var ready := n.(body := rb.body);
    match rb.digest
    case Err(e) => SignTrace(Some(e), [], ready)
    case Ok(digest) =>
      var input := SignInput(credentials, ready, FromBytes(digest), service, region, now);
      var out := signer(input);
      var signed := ready.(header := out.header);
      match out.failure
      case Some(e) => SignTrace(Some(SignerFailed(e)), [input], signed)
      case None => SignTrace(None, [input], signed)
  }

  /**
    One call of `RoundTrip`: its result, the signer calls and inner-transport
    calls it made (in order), and the request as handed to the inner
    transport (as left by the transport itself when nothing was delegated).
    The inner transport is taken not to touch the request.
   */
  datatype Trace = Trace(
    result: Result<Response, Error>,
    signerCalls: seq<SignInput>,
    delegated: seq<Message>,
    request: Message)

  function RoundTripSpec(signer: Option<Signer>, credentials: Credentials, service: string, region: string,
                         base: RoundTripper, m: Message, p: Primitives, now: Time): Trace
  {
    if signer.None? then Trace(Err(MissingSigner), [], [], m)
    else if service == "" then Trace(Err(MissingService), [], [], m)
    else if region == "" then Trace(Err(MissingRegion), [], [], m)
    else if AlreadySigned(m.header) then Trace(base(m), [], [m], m)
    else
      var s := SignSpec(signer.value, credentials, service, region, m, p, now);
      match s.error
      case Some(e) => Trace(Err(SigningFailed(e)), s.signerCalls, [], s.request)
      case None => Trace(base(s.request), s.signerCalls, [s.request], s.request)
  }

  class Transport {
    var baseTransport: Option<RoundTripper>  // BaseTransport; None is nil
    const signer: Option<Signer>
    const credentials: Credentials
    const service: string
    const region: string

    /** NewTransport: no base transport yet. */
    constructor (signer: Option<Signer>, credentials: Credentials, service: string, region: string)
      ensures this.signer == signer && this.credentials == credentials
      ensures this.service == service && this.region == region
      ensures baseTransport.None?
    {
      this.signer := signer;
      this.credentials := credentials;
      this.service := service;
      this.region := region;
      baseTransport := None;
    }

    /** The inner transport: BaseTransport, or http.DefaultTransport when it is nil. */
    function Base(defaultTransport: RoundTripper): (r: RoundTripper)
      reads this
      ensures baseTransport.Some? ==> r == baseTransport.value
      ensures baseTransport.None? ==> r == defaultTransport
    {
      if baseTransport.Some? then baseTransport.value else defaultTransport
    }

    /**
      RoundTrip. `now` stands for time.Now() inside sign; `defaultTransport`
      for http.DefaultTransport. The ghost outputs record the calls made to
      the signer and to the inner transport.
     */
    method RoundTrip(req: Request, p: Primitives, now: Time, defaultTransport: RoundTripper)
      returns (res: Result<Response, Error>, ghost signerCalls: seq<SignInput>, ghost delegated: seq<Message>)
      modifies req, req.Streams()
      ensures Trace(res, signerCalls, delegated, req.Value())
           == RoundTripSpec(signer, credentials, service, region, Base(defaultTransport), old(req.Value()), p, now)
      ensures signer.Some? && service != "" && region != "" && !AlreadySigned(old(req.header)) && old(req.body).Some?
        ==> old(req.body).value.State() == Drained(old(req.body.value.State()))
    {
      if signer.None? {
        return Err(MissingSigner), [], [];
      }
      if service == "" {
        return Err(MissingService), [], [];
      }
      if region == "" {
        return Err(MissingRegion), [], [];
      }

      var base := Base(defaultTransport);
      if AlreadySigned(req.header) {
        delegated := [req.Value()];
        res := base(req.Value());
        return res, [], delegated;
      }

      var err;
      err, signerCalls := Sign(req, p, now);
      if err.Some? {
        return Err(SigningFailed(err.value)), signerCalls, [];
      }
      delegated := [req.Value()];
      res := base(req.Value());
    }

    /** sign: normalise the request, rebuild the body, call the signer. */
    method Sign(req: Request, p: Primitives, now: Time) returns (err: Option<SignError>, ghost signerCalls: seq<SignInput>)
      requires signer.Some?
      modifies req, req.Streams()
      ensures SignTrace(err, signerCalls, req.Value())
           == SignSpec(signer.value, credentials, service, region, old(req.Value()), p, now)
      ensures old(req.body).Some? ==> old(req.body).value.State() == Drained(old(req.body.value.State()))
    {
      ghost var n := Normalized(req.Value(), p, now);
      req.scheme := "https";
      if Contains(req.rawPath, EncodedComma) {
        req.rawPath := p.escapePath(req.rawPath, false);
      }
      assert req.scheme == n.scheme && req.rawPath == n.rawPath;

      req.DelHeader("X-Forwarded-For");
      req.DelHeader("X-Forwarded-Host");
      req.DelHeader("X-Forwarded-Port");
      req.DelHeader("X-Forwarded-Proto");
      assert req.header == old(req.header) - ForwardedHeaders;

      var date := now;
      req.SetHeader(DateHeader, p.formatRFC3339(date));
      assert req.header == n.header;
      assert req.Value() == n;

      ghost var rb := Rebuilt(n.body, p.sha256);
      var hash := RebuildBody(req, p.sha256);
      assert hash == rb.digest && req.Value() == n.(body := rb.body);
      if hash.Err? {
        return Some(hash.error), [];
      }
      var input := SignInput(credentials, req.Value(), FromBytes(hash.value), service, region, date);
      signerCalls := [input];
      var out := signer.value(input);
      req.header := out.header;
      match out.failure
      case Some(e) =>
        err := Some(SignerFailed(e));
      case None =>
        err := None;
    }

    /** rebuildBody: read the body into memory, put a fresh reader over it back, return its digest. */
    method RebuildBody(req: Request, sha256: seq<byte> -> Digest) returns (r: Result<Digest, SignError>)
      modifies req, req.Streams()
      ensures var rb := Rebuilt(old(req.Value()).body, sha256);
        r == rb.digest && req.Value() == old(req.Value()).(body := rb.body)
      ensures old(req.body).Some? ==> old(req.body).value.State() == Drained(old(req.body.value.State()))
      ensures r.Ok? && old(req.body).Some? ==> req.body.Some? && fresh(req.body.value)
      ensures fresh(req.Streams() - old(req.Streams()))
    {
      if req.body.None? {
        var sum := sha256([]);
        return Ok(sum);
      }
      var d := req.body.value.ReadToEnd();
      if d.Err? {
        return Err(BodyReadFailed(d.error));
      }
      var reader := new Stream(MemoryBody(d.value));
      req.body := Some(reader);
      var sum := sha256(d.value);
      return Ok(sum);
    }
  }
}

=== FILE: wrappers.dfy ===
/** Option and Result, used for the source's nil values and its `(value, error)` returns. */
module Wrappers {

  datatype Option<+T> = None | Some(value: T)

  datatype Result<+T, +E> = Ok(value: T) | Err(error: E)
}
